=== FILE: README.md ===
# Indoor air-quality monitor: a Dafny model of its core rules

The repository reads a bank of Raspberry Pi sensors: a BME680 gas/temperature/humidity/pressure
sensor, a PMS5003 particulate sensor that streams frames over UART, an SCD41 CO2 sensor and an
SHT40 temperature/humidity sensor. Around the driver calls it applies a few deterministic rules.
This project models those rules and proves what they promise.

- **Burn-in and gas baseline** (`688_fullsc.py`, `BME688_ALL.py`). A loop keeps the gas resistance
  of every heat-stable reading, in arrival order. The baseline is then
  `sum(burn_in_data[-50:]) / 50`: the divisor is always 50. The two scripts differ only in where
  they sleep. `688_fullsc.py` sleeps one second after each kept sample, and `BME688_ALL.py` sleeps
  after every attempt. Modules `BmeSensor` and `BurnIn`.
- **Indoor-air-quality score** (the same code in both BME680 scripts). It is the sum of a humidity
  sub-score that peaks at 25 at 40 %RH and a gas sub-score that is linear below the gas baseline
  and pinned at 75 at or above it. It is not clamped. Module `AirQuality`. The measuring loop that
  scores only heat-stable readings is module `ScoringLoop`.
- **Collector** (`Projekt_App/collector.py`). A worker keeps the latest PMS5003 frame in a
  three-entry buffer (`PmsBuffer`). Each cycle copies that buffer, decodes the SCD41 CO2 word and
  the SHT40 raw words, and assembles the row for the INSERT. Module `Collector`.
- **Tk monitor tiles** (`aplikacja_all.py`). Seven tiles start as `"--"`. A PM read failure sets the
  three PM tiles to `"--"`. The BME tiles keep their values when no data arrives. The quick score
  is `min(100, max(0, gas/50000*100))`. Module `MonitorApp`.

All arithmetic is on exact reals (`real`). Bytes are `bv8`. Optional values use `Optional.Option`.

Two behaviours of the code are worth stating up front:

- The baseline has no error path. With fewer than 50 stable samples the sum is still divided by
  50, and with none the baseline is 0 (`BurnIn.GasBaseline`, `BurnIn.BaselineShortWindow`,
  `BurnIn.BaselineEmpty`).
- A failed SCD41 read raises before the INSERT and skips the whole row. Only an SHT40 failure
  leaves fields `NULL` (`Collector.CycleRow`, `Collector.RowsPerSuccessfulCycle`).

## Model

| member | source | states |
|---|---|---|
| `BmeSensor.StableReadings` | BME688_ALL.py:57 | the readings a loop acts on all carry heat_stable, and there are no more of them than read attempts |
| `BmeSensor.StableGas` | 688_fullsc.py:46-49 | the burn-in filter keeps exactly one value per stable outcome, so never more values than read attempts |
| `BmeSensor.StableGasAppend` | 688_fullsc.py:46-49 | the burn-in filter distributes over concatenation, so values that arrive later are kept later: arrival order is preserved |
| `BmeSensor.StableReadingsAppend` | BME688_ALL.py:56-58 | the readings the main loop scores distribute over concatenation, so they come in arrival order |
| `BmeSensor.StableReadingsSingle` | BME688_ALL.py:57-60 | one read attempt contributes its whole reading, every field unchanged, exactly when data was returned and heat_stable is set, and nothing otherwise |
| `BmeSensor.StableGasSingle` | 688_fullsc.py:47-49 | one read attempt contributes its gas resistance exactly when data was returned and heat_stable is set, and nothing otherwise |
| `BmeSensor.StableGasSound` | 688_fullsc.py:46-49 | exactly one value is kept per stable reading, and every kept value is the gas resistance of some stable reading |
| `BmeSensor.StableGasIsGasOfStableReadings` | BME688_ALL.py:40-42 | the kept values are, position by position, the gas resistances of the stable readings |
| `BurnIn.BurnInFullsc` | 688_fullsc.py:42-51 | the loop returns exactly the stable gas values in arrival order, and sleeps once per kept sample |
| `BurnIn.BurnInAll` | BME688_ALL.py:33-44 | the loop returns exactly the stable gas values in arrival order, and sleeps once per attempt, stable or not |
| `BurnIn.LastAtMost` | 688_fullsc.py:53 | `s[-50:]` is the suffix of s of length min(50, len(s)) |
| `BurnIn.GasBaseline` | 688_fullsc.py:53 | the baseline has no error path: with no sample it is 0, and with fewer than 50 samples it is their whole sum divided by 50 |
| `BurnIn.BaselineFullWindow` | 688_fullsc.py:53 | with at least 50 samples the baseline is the mean of the last 50 |
| `BurnIn.BaselineEmpty` | 688_fullsc.py:53 | with no sample the baseline is 0, and no error is raised |
| `BurnIn.BaselineShortWindow` | BME688_ALL.py:47 | with 1..49 positive samples the baseline times 50 is their sum, which is strictly below their true mean |
| `BurnIn.BaselineWithinSamples` | BME688_ALL.py:46-47 | with at least 50 samples, the last 50 of them in [lo, hi], the baseline lies in [lo, hi] whatever the earlier samples were |
| `BurnIn.BaselineNonNegative` | 688_fullsc.py:53 | non-negative samples give a non-negative baseline, whatever their number |
| `BurnIn.BaselineOfSteadyGas` | BME688_ALL.py:47 | n equal samples c give the baseline c when n >= 50 and c*n/50 otherwise |
| `AirQuality.HumScore` | 688_fullsc.py:71-81 | the humidity sub-score never exceeds 25, and equals 25 exactly at 40 %RH |
| `AirQuality.HumScoreZeros` | 688_fullsc.py:74-81 | the humidity sub-score is 0 at 0 %RH and at 100 %RH |
| `AirQuality.HumScorePeak` | BME688_ALL.py:68-75 | the humidity sub-score rises strictly up to 40 %RH and falls strictly after it |
| `AirQuality.HumScoreRange` | BME688_ALL.py:68-75 | for 0..100 %RH the humidity sub-score lies in [0, 25] |
| `AirQuality.DivisionSafe` | 688_fullsc.py:84-85 | for a non-negative reading the division by gas_baseline is reached only with a positive divisor |
| `AirQuality.GasScore` | 688_fullsc.py:83-87 | the gas sub-score equals its ceiling 75 exactly when gas is at or above the baseline; below it a non-negative reading scores in [0, 75) |
| `AirQuality.Score` | 688_fullsc.py:89 | for a non-negative gas reading the score is at most 100, and equals 100 exactly when humidity is 40 %RH and gas is at or above the baseline |
| `AirQuality.GasScoreCapped` | 688_fullsc.py:84-87 | at or above the baseline the gas sub-score is the constant 75, however far above |
| `AirQuality.GasScoreBelowBaseline` | BME688_ALL.py:77-79 | below the baseline the gas sub-score lies in [0, 75) |
| `AirQuality.GasScoreStrictlyIncreasing` | BME688_ALL.py:77-79 | below the baseline the gas sub-score is strictly increasing in gas |
| `AirQuality.GasScoreMonotone` | 688_fullsc.py:83-87 | over all non-negative readings and every baseline, including the 0 of an empty burn-in, the gas sub-score never decreases as gas grows |
| `AirQuality.ScoreAtBaseline` | 688_fullsc.py:70-89 | with gas at the gas baseline and humidity at 40 %RH the score is exactly 25 + 75 = 100 |
| `AirQuality.ScoreRange` | 688_fullsc.py:70-89 | for 0..100 %RH, gas >= 0 and any baseline, the 0 of an empty burn-in included, the score is in [0, 100], and it is 100 exactly when humidity is 40 and gas is at or above the baseline |
| `AirQuality.ScoreNotClamped` | BME688_ALL.py:65-83 | the score is not clamped: 160 %RH with gas 0 scores -25 |
| `AirQuality.ScenarioHumidAndPolluted` | 688_fullsc.py:70-89 | baseline 100000, gas 50000, 60 %RH: 50/3 + 37.5 = 325/6, about 54.17 |
| `AirQuality.ScenarioDryAndClean` | BME688_ALL.py:65-83 | baseline 100000, gas 120000, 30 %RH: 18.75 + 75 = 93.75 |
| `ScoringLoop.MainLoop` | BME688_ALL.py:56-83 | one score is emitted per heat-stable reading, in order, and each is the score of that reading's gas and humidity against the baseline; only heat-stable readings need to be scorable |
| `Collector.PmsBuffer.constructor` | Projekt_App/collector.py:16 | the buffer starts as pm1 = pm25 = pm10 = 0, with exactly those three keys |
| `Collector.PmsBuffer.Update` | Projekt_App/collector.py:22-31 | a decoded frame replaces all three entries from that same frame; a failed read leaves the dict unchanged; the key set never changes |
| `Collector.PmsBuffer.Read` | Projekt_App/collector.py:80-83 | the copy is the buffer's current snapshot, all three entries together |
| `Collector.PmsBuffer.Work` | Projekt_App/collector.py:19-31 | the worker loop leaves the buffer equal to the replay of its reads, and backs off once per failed read |
| `Collector.Replay` | Projekt_App/collector.py:22-31 | after any run of reads the buffer is its starting value or the snapshot of one successful frame, never a mixture |
| `Collector.ReplayIsLastFrame` | Projekt_App/collector.py:22-31 | the buffer holds the last successful frame's three values, or its initial value if no read succeeded, so it never mixes two frames |
| `Collector.ReplayAppend` | Projekt_App/collector.py:22-31 | processing two runs of reads in turn equals processing their concatenation |
| `Collector.Word` | Projekt_App/collector.py:89 | the shift-and-or of hi and lo is a 16-bit word whose high byte is hi and whose low byte is lo |
| `Collector.Sht40Temperature` | Projekt_App/collector.py:55 | the temperature conversion lies in [-45, 130] degrees C |
| `Collector.Sht40Humidity` | Projekt_App/collector.py:56 | the humidity conversion lies in [-6, 119] %RH |
| `Collector.Sht40Monotone` | Projekt_App/collector.py:55-56 | both conversions are strictly increasing in the raw word |
| `Collector.Sht40Invertible` | Projekt_App/collector.py:55-56 | the raw word is recovered from either converted value |
| `Collector.Sht40Extremes` | Projekt_App/collector.py:55-56 | raw 0 and 65535 give -45 and 130 degrees C and -6 and 119 %RH, so humidity is not clamped |
| `Collector.ReadSht40` | Projekt_App/collector.py:48-59 | both values or neither; (None, None) on a failed transaction or a short read; values within the conversion ranges |
| `Collector.Sht40IgnoresCrc` | Projekt_App/collector.py:52-56 | the CRC bytes d[2] and d[5] never change the result |
| `Collector.Sht40NeverZero` | Projekt_App/collector.py:55-56 | no raw word converts to exactly 0.0, so the falsy test empties a column only after a failed read |
| `Collector.Co2` | Projekt_App/collector.py:86-89 | CO2 is the big-endian word b0*256 + b1 in [0, 65535], with no CRC check, and absent when the transaction fails or is short |
| `Collector.RoundHalfEven` | Projekt_App/collector.py:99 | rounds to a nearest integer, ties to the even one |
| `Collector.Round1` | Projekt_App/collector.py:99 | `round(t, 1)` is a multiple of 0.1 within 0.05 of t |
| `Collector.Round0` | Projekt_App/collector.py:99 | `round(h, 0)` is an integer within 0.5 of h |
| `Collector.AssembleRow` | Projekt_App/collector.py:95-100 | temp/hum are NULL exactly when falsy, otherwise `round(t, 1)` and `round(h, 0)` of the reading; pm1 goes to column pm10, pm25 to pm25, pm10 to pm100; co2 is copied; voc and iaq are always NULL |
| `Collector.RowHasShtValuesIffRead` | Projekt_App/collector.py:92-100 | a row holds temp and hum exactly when the SHT40 read succeeded |
| `Collector.CycleRow` | Projekt_App/collector.py:78-105 | a cycle yields a row exactly when its SCD41 read succeeded |
| `Collector.Rows` | Projekt_App/collector.py:76-105 | a run of cycles inserts at most one row per cycle, and no row carries voc or iaq |
| `Collector.Collect` | Projekt_App/collector.py:76-105 | the collector loop inserts exactly the rows of the cycle-by-cycle specification, and leaves the buffer at the replay of all worker reads |
| `Collector.RowsPerSuccessfulCycle` | Projekt_App/collector.py:76-105 | one row per cycle whose CO2 read succeeded, so a failure costs only its own cycle |
| `MonitorApp.QuickAq` | aplikacja_all.py:132 | the quick score lies in [0, 100], is 100 for gas >= 50000, 0 for gas <= 0, and gas/500 in between |
| `MonitorApp.QuickAqMonotone` | aplikacja_all.py:132 | the quick score never decreases as gas grows |
| `MonitorApp.TileGroups` | aplikacja_all.py:79-88 | the PM tiles and the BME tiles are disjoint and together are exactly the seven tile keys |
| `MonitorApp.Monitor.constructor` | aplikacja_all.py:79-98 | exactly the seven tiles exist, each showing "--" |
| `MonitorApp.Monitor.UpdateReadings` | aplikacja_all.py:106-133 | PM tiles take one frame's values or all "--" on a failed read, and are untouched without a PMS sensor; BME tiles change only when the sensor exists and returned data, whether heat-stable or not, and otherwise keep their values; the key set never changes |

## Left out

- Sensor drivers and bring-up are left out. This covers `bme680` setup, the PMS5003 UART framing
  and checksum, `smbus2` I2C messages, and the SCD41 start/stop commands. Each read is a
  parameter instead: an `Option<BmeData>`, an `Option<PmsFrame>`, or an `I2cRead`.
- Time is left out. `time.time()`, `time.sleep` and Tk's `self.after` are not modelled. The burn-in
  deadline becomes the finite sequence of read outcomes that arrive before it. Each burn-in loop
  reports how many one-second sleeps it took. The endless `while True` loops run over finite
  sequences of inputs.
- The worker thread, the lock and the daemon flag in `Projekt_App/collector.py` are left out. The
  buffer is used sequentially: the worker's reads between two cycles are applied before the cycle
  copies the buffer.
- Persistence and output are left out: CSV files, the SQLite schema, connection and commit, prints,
  and `os.system("clear")`. The model stops at the values handed to the INSERT or to the display.
- `Projekt_App/app.py` (Flask routes and SQL queries) is not part of this model.
- Tk widgets, fonts and layout are left out. So is the one- and two-decimal string formatting: a
  tile holds the exact value it would display.
- IEEE-754 floating point is left out. All values are exact reals, and `round` rounds the exact
  value half-to-even.
- AirQuality.GasScore: its requires is exactly the condition under which the division does not
  raise `ZeroDivisionError`. The crash path of the script (a negative reading against a zero
  baseline, which the driver cannot produce) is not modelled.
- ScoringLoop.MainLoop: it returns the emitted scores and readings, not the printed text or CSV
  line. Its requires rules out the same division crash for every heat-stable reading of the run;
  readings that are not heat-stable are never scored and need nothing.
- A raising BME680 read is not modelled: `get_sensor_data()` returning normally is the only path.
  An I2C `IOError` inside it is caught nowhere in the BME680 scripts. In `688_fullsc.py` (lines
  46-47 and 63; only `KeyboardInterrupt` is caught, line 115) and in `BME688_ALL.py` (lines 39-40
  and 57; `KeyboardInterrupt` only, line 93) the script ends. In `aplikacja_all.py` a raise at
  line 121 escapes `update_readings` before `self.after` at line 135, so the tiles stop refreshing.
- MonitorApp.Monitor.UpdateReadings: it models one tick; the rescheduling by `self.after(1500, …)`
  is Tk's event loop. The application's `__init__` (aplikacja_all.py:30) is the `Monitor`
  constructor followed by one `UpdateReadings` tick.

=== FILE: air_quality.dfy ===
/** The indoor-air-quality score computed on every heat-stable reading of the
    BME680 scripts: a humidity sub-score that peaks at the humidity baseline
    plus a gas sub-score that grows linearly up to the gas baseline and is
    pinned at its ceiling from there on. Values are exact reals. */
module AirQuality {

  /** hum_baseline: the humidity (%RH) that earns the full humidity sub-score. */
  const HumBaseline: real := 40.0
  /** hum_weighting: the share of the score attributed to humidity. */
  const HumWeighting: real := 0.25

  /** Ceiling of the humidity sub-score, hum_weighting * 100 = 25. */
  const HumCeiling: real := HumWeighting * 100.0
  /** Ceiling of the gas sub-score, 100 - hum_weighting * 100 = 75. */
  const GasCeiling: real := 100.0 - HumWeighting * 100.0

  /** Humidity sub-score: linear on each side of the baseline, never above
      its ceiling, and at its ceiling only at the baseline itself. Not
      clamped below: humidities outside [0, 100] give a negative value. */
  function HumScore(hum: real): (s: real)
    ensures s <= HumCeiling
    ensures s == HumCeiling <==> hum == HumBaseline
  {
    var humOffset := hum - HumBaseline;
    if humOffset > 0.0 then
      (100.0 - HumBaseline - humOffset) / (100.0 - HumBaseline) * HumCeiling
    else
      (HumBaseline + humOffset) / HumBaseline * HumCeiling
  }

  /** A gas reading can be scored against the baseline without a division
      by zero: the division is reached only when the baseline exceeds the
      reading, and then the baseline must not be 0. */
  predicate Scorable(gas: real, gasBaseline: real) {
    gasBaseline - gas > 0.0 ==> gasBaseline != 0.0
  }

  /** Gas sub-score. The division by the gas baseline happens only when the
      baseline exceeds the reading; the precondition is exactly the domain on
      which that division does not raise ZeroDivisionError. The ceiling is
      reached exactly at or above the baseline; below it a non-negative
      reading earns a proportion of the ceiling. */
  function GasScore(gas: real, gasBaseline: real): (s: real)
    requires Scorable(gas, gasBaseline)
    ensures s == GasCeiling <==> gas >= gasBaseline
    ensures 0.0 <= gas < gasBaseline ==> 0.0 <= s < GasCeiling
  {
    var gasOffset := gasBaseline - gas;
    if gasOffset > 0.0 then
      (gas / gasBaseline) * GasCeiling
    else
      GasCeiling
  }

  /** air_quality = hum_score + gas_score. For a non-negative gas reading
      the score never exceeds 100, and reaches 100 only with humidity at its
      baseline and gas at or above its own. */
  function Score(gas: real, hum: real, gasBaseline: real): (q: real)
    requires Scorable(gas, gasBaseline)
    ensures gas >= 0.0 ==> q <= 100.0
    ensures gas >= 0.0 ==> (q == 100.0 <==> hum == HumBaseline && gas >= gasBaseline)
  {
    HumScore(hum) + GasScore(gas, gasBaseline)
  }

  /** Every non-negative gas reading is safe to score: the divisor is then
      positive whenever the division is reached. */
  lemma DivisionSafe(gas: real, gasBaseline: real)
    requires gas >= 0.0
    ensures gasBaseline - gas > 0.0 ==> gasBaseline > 0.0
  {
  }

  /** At or above the baseline the gas sub-score is its ceiling, however far
      above the baseline the reading is. */
  lemma GasScoreCapped(gas: real, gasBaseline: real)
    requires gas >= gasBaseline
    ensures GasScore(gas, gasBaseline) == GasCeiling == 75.0
  {
  }

  /** Below the baseline the gas sub-score is a proportion of its ceiling:
      non-negative and strictly below the ceiling. */
  lemma GasScoreBelowBaseline(gas: real, gasBaseline: real)
    requires 0.0 <= gas < gasBaseline
    ensures 0.0 <= GasScore(gas, gasBaseline) < GasCeiling
  {
  }

  /** Below the baseline the gas sub-score is strictly increasing in gas. */
  lemma GasScoreStrictlyIncreasing(g1: real, g2: real, gasBaseline: real)
    requires 0.0 <= g1 < g2 < gasBaseline
    ensures GasScore(g1, gasBaseline) < GasScore(g2, gasBaseline)
  {
  }

  /** Over all non-negative readings the gas sub-score never decreases, for
      every baseline (including the 0.0 of an empty burn-in). */
  lemma GasScoreMonotone(g1: real, g2: real, gasBaseline: real)
    requires 0.0 <= g1 <= g2
    ensures GasScore(g1, gasBaseline) <= GasScore(g2, gasBaseline)
  {
    if g2 < gasBaseline {
      if g1 < g2 {
        GasScoreStrictlyIncreasing(g1, g2, gasBaseline);
      }
    } else if g1 < gasBaseline {
      GasScoreBelowBaseline(g1, gasBaseline);
    }
  }

  /** The humidity sub-score is 0 at 0 %RH and at 100 %RH. */
  lemma HumScoreZeros()
    ensures HumScore(0.0) == 0.0
    ensures HumScore(100.0) == 0.0
  {
  }

  /** The humidity sub-score rises strictly up to the baseline and falls
      strictly after it. */
  lemma HumScorePeak(h1: real, h2: real)
    requires h1 < h2
    ensures h2 <= HumBaseline ==> HumScore(h1) < HumScore(h2)
    ensures HumBaseline <= h1 ==> HumScore(h1) > HumScore(h2)
  {
  }

  /** For a physical humidity the humidity sub-score lies in [0, 25]. */
  lemma HumScoreRange(hum: real)
    requires 0.0 <= hum <= 100.0
    ensures 0.0 <= HumScore(hum) <= HumCeiling
  {
  }

  /** At the baselines the score is exactly 25 + 75 = 100. */
  lemma ScoreAtBaseline(gasBaseline: real)
    ensures Score(gasBaseline, HumBaseline, gasBaseline) == 100.0
  {
  }

  /** For physical inputs the score lies in [0, 100], and it reaches 100
      exactly when humidity is at its baseline and gas at or above its own.
      Any baseline will do, including the 0.0 of an empty burn-in. */
  lemma ScoreRange(gas: real, hum: real, gasBaseline: real)
    requires 0.0 <= hum <= 100.0
    requires gas >= 0.0
    ensures 0.0 <= Score(gas, hum, gasBaseline) <= 100.0
    ensures Score(gas, hum, gasBaseline) == 100.0 <==> hum == HumBaseline && gas >= gasBaseline
  {
    HumScoreRange(hum);
    if gas < gasBaseline {
      GasScoreBelowBaseline(gas, gasBaseline);
    }
  }

  /** The score is not clamped: a humidity reading above 100 %RH drives it
      below zero. */
  lemma ScoreNotClamped()
    ensures Score(0.0, 160.0, 100000.0) == -25.0
  {
  }

  /** Baseline 100000, gas 50000, humidity 60: 16.666... + 37.5. */
  lemma ScenarioHumidAndPolluted()
    ensures HumScore(60.0) == 50.0 / 3.0
    ensures GasScore(50000.0, 100000.0) == 37.5
    ensures Score(50000.0, 60.0, 100000.0) == 325.0 / 6.0
  {
  }

  /** Baseline 100000, gas 120000, humidity 30: 18.75 + 75 = 93.75. */
  lemma ScenarioDryAndClean()
    ensures HumScore(30.0) == 18.75
    ensures GasScore(120000.0, 100000.0) == 75.0
    ensures Score(120000.0, 30.0, 100000.0) == 93.75
  {
  }
}

=== FILE: bme_sensor.dfy ===
/** What one call of the BME680 driver's get_sensor_data() yields, and the
    heat-stable filter that both burn-in loops and both main loops apply. */
module BmeSensor {
  import opened Optional

  /** The fields of sensor.data that the scripts use. */
  datatype BmeData = BmeData(
    temperature: real,
    pressure: real,
    humidity: real,
    gasResistance: real,
    heatStable: bool)

  /** One read attempt: None when get_sensor_data() returned a falsy value,
      Some(d) when new data was available in sensor.data. */
  type ReadOutcome = Option<BmeData>

  /** `sensor.get_sensor_data() and sensor.data.heat_stable` */
  predicate Stable(o: ReadOutcome) {
    o.Some? && o.value.heatStable
  }

  /** The gas resistances of the stable outcomes, in arrival order: one
      per stable outcome, so never more than there were outcomes. */
  function StableGas(outcomes: seq<ReadOutcome>): (g: seq<real>)
    ensures |g| == CountStable(outcomes) <= |outcomes|
  {
    if outcomes == [] then []
    else
      var last := outcomes[|outcomes| - 1];
      StableGas(outcomes[..|outcomes| - 1])
        + (if Stable(last) then [last.value.gasResistance] else [])
  }

  /** The stable readings themselves, in arrival order. */
  function StableReadings(outcomes: seq<ReadOutcome>): (rs: seq<BmeData>)
    ensures |rs| <= |outcomes|
    ensures forall k :: 0 <= k < |rs| ==> rs[k].heatStable
  {
    if outcomes == [] then []
    else
      var last := outcomes[|outcomes| - 1];
      StableReadings(outcomes[..|outcomes| - 1])
        + (if Stable(last) then [last.value] else [])
  }

  /** Number of stable outcomes. */
  function CountStable(outcomes: seq<ReadOutcome>): nat {
    if outcomes == [] then 0
    else CountStable(outcomes[..|outcomes| - 1]) + (if Stable(outcomes[|outcomes| - 1]) then 1 else 0)
  }

  /** The filter distributes over concatenation: readings that arrive later
      come later in the result, so arrival order is preserved. */
  lemma {:induction false} StableGasAppend(a: seq<ReadOutcome>, b: seq<ReadOutcome>)
    ensures StableGas(a + b) == StableGas(a) + StableGas(b)
    decreases |b|
  {
    if b == [] {
      assert a + b == a;
    } else {
      var b' := b[..|b| - 1];
      assert (a + b)[..|a + b| - 1] == a + b';
      assert (a + b)[|a + b| - 1] == b[|b| - 1];
      StableGasAppend(a, b');
    }
  }

  /** The same for the whole readings: those of later outcomes come later,
      each one the complete record of its outcome. */
  lemma {:induction false} StableReadingsAppend(a: seq<ReadOutcome>, b: seq<ReadOutcome>)
    ensures StableReadings(a + b) == StableReadings(a) + StableReadings(b)
    decreases |b|
  {
    if b == [] {
      assert a + b == a;
    } else {
      var b' := b[..|b| - 1];
      assert (a + b)[..|a + b| - 1] == a + b';
      assert (a + b)[|a + b| - 1] == b[|b| - 1];
      StableReadingsAppend(a, b');
    }
  }

  /** A single outcome contributes its whole reading exactly when it is
      stable; with StableReadingsAppend this fixes every field of every
      reading the main loop scores. */
  lemma StableReadingsSingle(o: ReadOutcome)
    ensures StableReadings([o]) == if Stable(o) then [o.value] else []
  {
    assert [o][..0] == [];
  }

  /** A single outcome contributes its gas value exactly when it is stable. */
  lemma StableGasSingle(o: ReadOutcome)
    ensures StableGas([o]) == if Stable(o) then [o.value.gasResistance] else []
  {
    assert [o][..0] == [];
  }

  /** Every kept value is one of the stable readings; nothing else is kept,
      and exactly one value is kept per stable reading. */
  lemma {:induction false} StableGasSound(outcomes: seq<ReadOutcome>)
    ensures |StableGas(outcomes)| == CountStable(outcomes)
    ensures forall x :: x in StableGas(outcomes) ==>
              exists i :: 0 <= i < |outcomes| && Stable(outcomes[i]) && outcomes[i].value.gasResistance == x
  {
    if outcomes != [] {
      var pre := outcomes[..|outcomes| - 1];
      StableGasSound(pre);
      forall x | x in StableGas(outcomes)
        ensures exists i :: 0 <= i < |outcomes| && Stable(outcomes[i]) && outcomes[i].value.gasResistance == x
      {
        if x in StableGas(pre) {
          var i :| 0 <= i < |pre| && Stable(pre[i]) && pre[i].value.gasResistance == x;
          assert outcomes[i] == pre[i];
        } else {
          assert Stable(outcomes[|outcomes| - 1]);
        }
      }
    }
  }

  /** The gas values kept are exactly the gas values of the stable readings. */
  lemma {:induction false} StableGasIsGasOfStableReadings(outcomes: seq<ReadOutcome>)
    ensures |StableGas(outcomes)| == |StableReadings(outcomes)|
    ensures forall k :: 0 <= k < |StableGas(outcomes)| ==>
              StableGas(outcomes)[k] == StableReadings(outcomes)[k].gasResistance
  {
    if outcomes != [] {
      StableGasIsGasOfStableReadings(outcomes[..|outcomes| - 1]);
    }
  }
}

=== FILE: burn_in.dfy ===
/** The one-time burn-in that fixes the gas baseline: a loop that keeps the
    gas resistance of every heat-stable reading, then the mean-like
    `sum(burn_in_data[-50:]) / 50`. The wall-clock deadline is abstracted to
    the finite sequence of read outcomes that arrive before it; each loop
    also reports how many one-second sleeps it took. */
module BurnIn {
  import opened BmeSensor

  /** Size of the baseline window and the constant divisor. */
  const Window: nat := 50

  function Sum(s: seq<real>): real {
    if s == [] then 0.0 else Sum(s[..|s| - 1]) + s[|s| - 1]
  }

  /** Python's `s[-k:]` for k > 0: the last k elements, or all of them
      when there are fewer. */
  function LastAtMost(s: seq<real>, k: nat): (w: seq<real>)
    ensures |w| == if |s| < k then |s| else k
    ensures w == s[|s| - |w|..]
  {
    if |s| <= k then s else s[|s| - k..]
  }

  /** gas_baseline = sum(burn_in_data[-50:]) / 50, divided by 50 whatever
      the number of samples collected: there is no error path, a short
      burn-in still divides its whole sum by 50 and an empty one gives 0. */
  function GasBaseline(burnInData: seq<real>): (r: real)
    ensures burnInData == [] ==> r == 0.0
    ensures |burnInData| < Window ==> r * Window as real == Sum(burnInData)
  {
    Sum(LastAtMost(burnInData, Window)) / Window as real
  }

  /** Burn-in loop of 688_fullsc.py: sleeps one second only after a kept
      (heat-stable) sample. */
  method BurnInFullsc(outcomes: seq<ReadOutcome>) returns (burnInData: seq<real>, sleeps: nat)
    ensures burnInData == StableGas(outcomes)
    ensures sleeps == |burnInData| == CountStable(outcomes)
  {
    burnInData, sleeps := [], 0;
    var i := 0;
    while i < |outcomes|
      invariant 0 <= i <= |outcomes|
      invariant burnInData == StableGas(outcomes[..i])
      invariant sleeps == |burnInData|
    {
      assert outcomes[..i + 1][..i] == outcomes[..i];
      var o := outcomes[i];
      if Stable(o) {
        burnInData := burnInData + [o.value.gasResistance];
        sleeps := sleeps + 1;
      }
      i := i + 1;
    }
    assert outcomes[..i] == outcomes;
    StableGasSound(outcomes);
  }

  /** Burn-in loop of BME688_ALL.py: sleeps one second after every attempt,
      stable or not. */
  method BurnInAll(outcomes: seq<ReadOutcome>) returns (burnInData: seq<real>, sleeps: nat)
    ensures burnInData == StableGas(outcomes)
    ensures sleeps == |outcomes|
  {
    burnInData, sleeps := [], 0;
    var i := 0;
    while i < |outcomes|
      invariant 0 <= i <= |outcomes|
      invariant burnInData == StableGas(outcomes[..i])
      invariant sleeps == i
    {
      assert outcomes[..i + 1][..i] == outcomes[..i];
      var o := outcomes[i];
      if Stable(o) {
        burnInData := burnInData + [o.value.gasResistance];
      }
      sleeps := sleeps + 1;
      i := i + 1;
    }
    assert outcomes[..i] == outcomes;
  }

  /** A sum of values in [lo, hi] lies between |s| * lo and |s| * hi. */
  lemma {:induction false} SumBounds(s: seq<real>, lo: real, hi: real)
    requires forall k :: 0 <= k < |s| ==> lo <= s[k] <= hi
    ensures |s| as real * lo <= Sum(s) <= |s| as real * hi
  {
    if s != [] {
      SumBounds(s[..|s| - 1], lo, hi);
    }
  }

  /** The sum of n copies of c is n * c. */
  lemma {:induction false} SumConstant(s: seq<real>, c: real)
    requires forall k :: 0 <= k < |s| ==> s[k] == c
    ensures Sum(s) == |s| as real * c
  {
    if s != [] {
      SumConstant(s[..|s| - 1], c);
    }
  }

  /** With at least 50 samples the baseline is the true mean of the last 50. */
  lemma BaselineFullWindow(burnInData: seq<real>)
    requires |burnInData| >= Window
    ensures GasBaseline(burnInData) == Sum(burnInData[|burnInData| - Window..]) / Window as real
  {
  }

  /** With no sample at all the baseline is 0; no error is raised. */
  lemma BaselineEmpty()
    ensures GasBaseline([]) == 0.0
  {
  }

  /** With fewer than 50 samples the divisor stays 50: the baseline is the
      sum of all samples over 50, which for positive samples is strictly
      below their true mean (baseline * n < sum). */
  lemma {:induction false} BaselineShortWindow(burnInData: seq<real>)
    requires 0 < |burnInData| < Window
    requires forall k :: 0 <= k < |burnInData| ==> burnInData[k] > 0.0
    ensures GasBaseline(burnInData) * Window as real == Sum(burnInData)
    ensures GasBaseline(burnInData) * |burnInData| as real < Sum(burnInData)
  {
    assert LastAtMost(burnInData, Window) == burnInData;
    SumPositive(burnInData);
    ShortDivisorBelow(Sum(burnInData), |burnInData|);
  }

  /** A positive total divided by 50 and scaled back by fewer than 50
      stays below the total. */
  lemma ShortDivisorBelow(total: real, n: nat)
    requires total > 0.0 && 0 < n < Window
    ensures total / Window as real * n as real < total
  {
    var b := total / 50.0;
    assert b > 0.0;
    assert b * (50.0 - n as real) > 0.0;
  }

  /** A non-empty sum of positive values is positive. */
  lemma {:induction false} SumPositive(s: seq<real>)
    requires |s| > 0
    requires forall k :: 0 <= k < |s| ==> s[k] > 0.0
    ensures Sum(s) > 0.0
  {
    if |s| > 1 {
      SumPositive(s[..|s| - 1]);
    } else {
      assert s[..0] == [];
    }
  }

  /** A sum of non-negative values is non-negative. */
  lemma {:induction false} SumNonNegative(s: seq<real>)
    requires forall k :: 0 <= k < |s| ==> s[k] >= 0.0
    ensures Sum(s) >= 0.0
  {
    if s != [] {
      SumNonNegative(s[..|s| - 1]);
    }
  }

  /** With at least 50 samples and the last 50 of them in [lo, hi], the
      baseline is in [lo, hi]; earlier samples play no part. */
  lemma BaselineWithinSamples(burnInData: seq<real>, lo: real, hi: real)
    requires |burnInData| >= Window
    requires forall k :: |burnInData| - Window <= k < |burnInData| ==> lo <= burnInData[k] <= hi
    ensures lo <= GasBaseline(burnInData) <= hi
  {
    var w := LastAtMost(burnInData, Window);
    SumBounds(w, lo, hi);
  }

  /** Non-negative samples give a non-negative baseline, whatever their number. */
  lemma BaselineNonNegative(burnInData: seq<real>)
    requires forall k :: 0 <= k < |burnInData| ==> burnInData[k] >= 0.0
    ensures GasBaseline(burnInData) >= 0.0
  {
    SumNonNegative(LastAtMost(burnInData, Window));
  }

  /** n equal samples c: the baseline is c when n >= 50 and c * n / 50 below that. */
  lemma BaselineOfSteadyGas(burnInData: seq<real>, c: real)
    requires forall k :: 0 <= k < |burnInData| ==> burnInData[k] == c
    ensures |burnInData| >= Window ==> GasBaseline(burnInData) == c
    ensures |burnInData| < Window ==> GasBaseline(burnInData) == c * |burnInData| as real / Window as real
  {
    SumConstant(LastAtMost(burnInData, Window), c);
  }
}

=== FILE: collector.dfy ===
/** The headless collector: a background worker keeps the latest PMS5003
    frame in a three-entry buffer, and every cycle the collector copies that
    buffer, reads CO2 from the SCD41 and temperature/humidity from the
    SHT40, and assembles the row handed to the INSERT. The lock, the daemon
    thread and the sleeps are abstracted away: the worker's reads between
    two cycles are applied to the buffer before the cycle copies it. */
module Collector {
  import opened Optional
  import opened Pms5003

  // ---------------------------------------------------------------------
  // The latest-particulate buffer (pms_latest_data)
  // ---------------------------------------------------------------------

  /** The three values the collector copies out of the buffer. */
  datatype PmSnapshot = PmSnapshot(pm1: int, pm25: int, pm10: int)

  /** The keys of pms_latest_data; no other key ever exists. */
  const PmKeys: set<string> := {"pm1", "pm25", "pm10"}

  /** The buffer contents a successful frame writes. */
  function FromFrame(f: PmsFrame): PmSnapshot {
    PmSnapshot(f.pm1, f.pm25, f.pm10)
  }

  /** The buffer after the worker has processed a run of read outcomes,
      starting from s: a frame replaces the snapshot, a failed read keeps it.
      The result is never a mixture: it is s itself or the snapshot of one
      successful frame. */
  function Replay(s: PmSnapshot, frames: seq<Option<PmsFrame>>): (r: PmSnapshot)
    ensures r == s || exists j :: 0 <= j < |frames| && frames[j].Some? && r == FromFrame(frames[j].value)
  {
    if frames == [] then s
    else
      var last := frames[|frames| - 1];
      if last.Some? then FromFrame(last.value) else Replay(s, frames[..|frames| - 1])
  }

  /** Number of failed reads, each followed by a one-second back-off. */
  function Failures(frames: seq<Option<PmsFrame>>): nat {
    if frames == [] then 0
    else Failures(frames[..|frames| - 1]) + (if frames[|frames| - 1].None? then 1 else 0)
  }

  class PmsBuffer {
    var latest: map<string, int>

    ghost predicate Valid()
      reads this
    {
      latest.Keys == PmKeys
    }

    /** The abstract value of the buffer. */
    function Snapshot(): PmSnapshot
      reads this
      requires Valid()
    {
      PmSnapshot(latest["pm1"], latest["pm25"], latest["pm10"])
    }

    /** pms_latest_data = {"pm1": 0, "pm25": 0, "pm10": 0} */
    constructor ()
      ensures Valid()
      ensures Snapshot() == PmSnapshot(0, 0, 0)
    {
      latest := map["pm1" := 0, "pm25" := 0, "pm10" := 0];
    }

    /** One worker iteration: a decoded frame replaces all three entries
        from that same frame; a failed read leaves the buffer untouched. */
    method Update(frame: Option<PmsFrame>)
      requires Valid()
      modifies this
      ensures Valid()
      ensures frame.Some? ==> Snapshot() == FromFrame(frame.value)
      ensures frame.None? ==> latest == old(latest)
    {
      if frame.Some? {
        var f := frame.value;
        latest := latest["pm1" := f.pm1]["pm25" := f.pm25]["pm10" := f.pm10];
      }
    }

    /** The collector's locked copy of the three values. */
    method Read() returns (s: PmSnapshot)
      requires Valid()
      ensures s == Snapshot()
    {
      s := PmSnapshot(latest["pm1"], latest["pm25"], latest["pm10"]);
    }

    /** The worker loop over the read outcomes it sees; it never stops on a
        failed read but backs off once and retries. */
    method Work(frames: seq<Option<PmsFrame>>) returns (backoffs: nat)
      requires Valid()
      modifies this
      ensures Valid()
      ensures Snapshot() == Replay(old(Snapshot()), frames)
      ensures backoffs == Failures(frames)
    {
      ghost var start := Snapshot();
      backoffs := 0;
      var i := 0;
      while i < |frames|
        invariant 0 <= i <= |frames|
        invariant Valid()
        invariant Snapshot() == Replay(start, frames[..i])
        invariant backoffs == Failures(frames[..i])
      {
        assert frames[..i + 1][..i] == frames[..i];
        Update(frames[i]);
        if frames[i].None? {
          backoffs := backoffs + 1;
        }
        i := i + 1;
      }
      assert frames[..i] == frames;
    }
  }

  /** Whatever the worker has read, the buffer is either its starting value
      or the snapshot of the LAST successful frame: all three values come
      from one frame, never from two. */
  lemma {:induction false} ReplayIsLastFrame(s: PmSnapshot, frames: seq<Option<PmsFrame>>)
    ensures (forall k :: 0 <= k < |frames| ==> frames[k].None?) ==> Replay(s, frames) == s
    ensures forall j :: 0 <= j < |frames| && frames[j].Some? && (forall k :: j < k < |frames| ==> frames[k].None?) ==>
              Replay(s, frames) == FromFrame(frames[j].value)
  {
    if frames != [] {
      var pre := frames[..|frames| - 1];
      ReplayIsLastFrame(s, pre);
      forall j | 0 <= j < |frames| && frames[j].Some? && (forall k :: j < k < |frames| ==> frames[k].None?)
        ensures Replay(s, frames) == FromFrame(frames[j].value)
      {
        if j < |frames| - 1 {
          assert frames[|frames| - 1].None?;
          assert forall k :: j < k < |pre| ==> pre[k] == frames[k];
        }
      }
    }
  }

  /** Processing two runs of reads one after the other is processing their
      concatenation. */
  lemma {:induction false} ReplayAppend(s: PmSnapshot, a: seq<Option<PmsFrame>>, b: seq<Option<PmsFrame>>)
    ensures Replay(s, a + b) == Replay(Replay(s, a), b)
    decreases |b|
  {
    if b == [] {
      assert a + b == a;
    } else {
      assert (a + b)[..|a + b| - 1] == a + b[..|b| - 1];
      ReplayAppend(s, a, b[..|b| - 1]);
    }
  }

  // ---------------------------------------------------------------------
  // Raw-word decoding of the I2C sensors
  // ---------------------------------------------------------------------

  /** The outcome of one I2C transaction: it raised, or it returned bytes. */
  datatype I2cRead = I2cFailed | I2cBytes(bytes: seq<bv8>)

  /** `hi << 8 | lo`: the big-endian 16-bit word of two bytes. */
  function Word(hi: bv8, lo: bv8): (w: nat)
    ensures w < 65536
    ensures w / 256 == hi as int && w % 256 == lo as int
  {
    ((hi as bv16 << 8) | lo as bv16) as int
  }

  /** SHT4x temperature conversion, -45 + 175 * raw / 65535 degrees C. */
  function Sht40Temperature(raw: nat): (t: real)
    requires raw < 65536
    ensures -45.0 <= t <= 130.0
  {
    -45.0 + 175.0 * (raw as real / 65535.0)
  }

  /** SHT4x humidity conversion, -6 + 125 * raw / 65535 %RH, not clamped
      to [0, 100]. */
  function Sht40Humidity(raw: nat): (h: real)
    requires raw < 65536
    ensures -6.0 <= h <= 119.0
  {
    -6.0 + 125.0 * (raw as real / 65535.0)
  }

  /** Both conversions are strictly increasing in the raw word. */
  lemma Sht40Monotone(r1: nat, r2: nat)
    requires r1 < r2 < 65536
    ensures Sht40Temperature(r1) < Sht40Temperature(r2)
    ensures Sht40Humidity(r1) < Sht40Humidity(r2)
  {
  }

  /** The raw word can be recovered from either converted value. */
  lemma Sht40Invertible(raw: nat)
    requires raw < 65536
    ensures (Sht40Temperature(raw) + 45.0) / 175.0 * 65535.0 == raw as real
    ensures (Sht40Humidity(raw) + 6.0) / 125.0 * 65535.0 == raw as real
  {
  }

  /** The end points of the raw range reach -45..130 degrees C and
      -6..119 %RH: humidity is not clamped to [0, 100]. */
  lemma Sht40Extremes()
    ensures Sht40Temperature(0) == -45.0 && Sht40Temperature(65535) == 130.0
    ensures Sht40Humidity(0) == -6.0 && Sht40Humidity(65535) == 119.0
  {
  }

  /** read_sht40's result: both values, or (None, None) on any exception. */
  datatype ShtReading = ShtReading(t: Option<real>, h: Option<real>)

  /** read_sht40: measure, read 6 bytes (T msb, T lsb, CRC, RH msb, RH lsb,
      CRC) and convert; a failed transaction or a short read (IndexError)
      gives (None, None). The CRC bytes are not checked. */
  function ReadSht40(read: I2cRead): (r: ShtReading)
    ensures r.t.Some? <==> r.h.Some?
    ensures r.t.Some? <==> read.I2cBytes? && |read.bytes| >= 5
    ensures r.t.Some? ==> -45.0 <= r.t.value <= 130.0 && -6.0 <= r.h.value <= 119.0
  {
    match read
    case I2cFailed => ShtReading(None, None)
    case I2cBytes(d) =>
      if |d| < 5 then ShtReading(None, None)
      else ShtReading(Some(Sht40Temperature(Word(d[0], d[1]))), Some(Sht40Humidity(Word(d[3], d[4]))))
  }

  /** The two CRC bytes never influence the result. */
  lemma Sht40IgnoresCrc(d: seq<bv8>, crc1: bv8, crc2: bv8)
    requires |d| == 6
    ensures ReadSht40(I2cBytes(d[2 := crc1][5 := crc2])) == ReadSht40(I2cBytes(d))
  {
  }

  /** SCD41 read_measurement: CO2 in ppm is the big-endian word of bytes 0
      and 1 of the 9-byte answer; no CRC is checked. A failed transaction or
      a short answer raises, modelled as None. */
  function Co2(read: I2cRead): (c: Option<nat>)
    ensures c.Some? <==> read.I2cBytes? && |read.bytes| >= 2
    ensures c.Some? ==> c.value < 65536
    ensures c.Some? ==> c.value == read.bytes[0] as int * 256 + read.bytes[1] as int
  {
    match read
    case I2cFailed => None
    case I2cBytes(d) => if |d| < 2 then None else Some(Word(d[0], d[1]))
  }

  // ---------------------------------------------------------------------
  // Row assembly
  // ---------------------------------------------------------------------

  /** Round to the nearest integer, ties to the even one (Python's round on
      an exact value). */
  function RoundHalfEven(q: real): (n: int)
    ensures q - 0.5 <= n as real <= q + 0.5
    ensures (n as real - q == 0.5 || q - n as real == 0.5) ==> n % 2 == 0
  {
    var f := q.Floor;
    var frac := q - f as real;
    if frac < 0.5 then f
    else if frac > 0.5 then f + 1
    else if f % 2 == 0 then f else f + 1
  }

  /** round(x, 1) */
  function Round1(x: real): (r: real)
    ensures -0.05 <= r - x <= 0.05
    ensures (r * 10.0).Floor as real == r * 10.0
  {
    RoundHalfEven(x * 10.0) as real / 10.0
  }

  /** round(x, 0) */
  function Round0(x: real): (r: real)
    ensures -0.5 <= r - x <= 0.5
    ensures r.Floor as real == r
  {
    RoundHalfEven(x) as real
  }

  /** Python truthiness of an optional float: None and 0.0 are falsy. */
  predicate Truthy(x: Option<real>) {
    x.Some? && x.value != 0.0
  }

  /** The values bound to (temp, hum, co2, pm10, pm25, pm100, voc, iaq). */
  datatype Row = Row(
    temp: Option<real>,
    hum: Option<real>,
    co2: nat,
    pm10: int,
    pm25: int,
    pm100: int,
    voc: Option<real>,
    iaq: Option<real>)

  function AssembleRow(pm: PmSnapshot, co2: nat, sht: ShtReading): (row: Row)
    ensures row.temp.None? <==> !Truthy(sht.t)
    ensures row.hum.None? <==> !Truthy(sht.h)
    ensures row.temp.Some? ==> -0.05 <= row.temp.value - sht.t.value <= 0.05
    ensures row.hum.Some? ==> -0.5 <= row.hum.value - sht.h.value <= 0.5
    ensures row.temp.Some? ==> row.temp.value == Round1(sht.t.value)
    ensures row.hum.Some? ==> row.hum.value == Round0(sht.h.value)
    ensures row.co2 == co2
    ensures row.pm10 == pm.pm1 && row.pm25 == pm.pm25 && row.pm100 == pm.pm10
    ensures row.voc.None? && row.iaq.None?
  {
    Row(
      if Truthy(sht.t) then Some(Round1(sht.t.value)) else None,
      if Truthy(sht.h) then Some(Round0(sht.h.value)) else None,
      co2, pm.pm1, pm.pm25, pm.pm10, None, None)
  }

  /** No raw word converts to exactly 0.0: 0 degrees C would need
      raw = 45 * 65535 / 175 and 0 %RH raw = 6 * 65535 / 125, neither an
      integer. So the falsy test on t and h empties a column only when
      read_sht40 failed. */
  lemma Sht40NeverZero(raw: nat)
    requires raw < 65536
    ensures Sht40Temperature(raw) != 0.0
    ensures Sht40Humidity(raw) != 0.0
  {
    if raw <= 16851 {
      assert raw as real * 175.0 <= 2948925.0;
    } else {
      assert raw as real * 175.0 >= 2949100.0;
    }
    if raw <= 3145 {
      assert raw as real * 125.0 <= 393125.0;
    } else {
      assert raw as real * 125.0 >= 393250.0;
    }
  }

  /** A row holds temp and hum exactly when the SHT40 read succeeded. */
  lemma RowHasShtValuesIffRead(pm: PmSnapshot, co2: nat, read: I2cRead)
    ensures AssembleRow(pm, co2, ReadSht40(read)).temp.Some? <==> ReadSht40(read).t.Some?
    ensures AssembleRow(pm, co2, ReadSht40(read)).hum.Some? <==> ReadSht40(read).h.Some?
  {
    if read.I2cBytes? && |read.bytes| >= 5 {
      Sht40NeverZero(Word(read.bytes[0], read.bytes[1]));
      Sht40NeverZero(Word(read.bytes[3], read.bytes[4]));
    }
  }

  // ---------------------------------------------------------------------
  // The collector loop
  // ---------------------------------------------------------------------

  /** What one cycle sees: the worker's reads since the previous cycle, the
      SCD41 transaction and the SHT40 transaction. */
  datatype CycleInput = CycleInput(frames: seq<Option<PmsFrame>>, scd41: I2cRead, sht40: I2cRead)

  /** One cycle's row, given the copied buffer: an SCD41 failure raises
      before the INSERT and skips the whole row; an SHT40 failure only
      empties temp and hum. */
  function CycleRow(pm: PmSnapshot, c: CycleInput): (row: Option<Row>)
    ensures row.Some? <==> Co2(c.scd41).Some?
  {
    match Co2(c.scd41)
    case None => None
    case Some(co2) => Some(AssembleRow(pm, co2, ReadSht40(c.sht40)))
  }

  /** All worker reads of a run of cycles, in order. */
  function AllFrames(cycles: seq<CycleInput>): seq<Option<PmsFrame>> {
    if cycles == [] then []
    else AllFrames(cycles[..|cycles| - 1]) + cycles[|cycles| - 1].frames
  }

  /** The rows inserted by a run of cycles starting from buffer value start:
      at most one per cycle, and none carries voc or iaq. */
  function Rows(start: PmSnapshot, cycles: seq<CycleInput>): (rs: seq<Row>)
    ensures |rs| <= |cycles|
    ensures forall k :: 0 <= k < |rs| ==> rs[k].voc.None? && rs[k].iaq.None?
  {
    if cycles == [] then []
    else
      var c := cycles[|cycles| - 1];
      var pm := Replay(start, AllFrames(cycles));
      Rows(start, cycles[..|cycles| - 1]) + (match CycleRow(pm, c) case Some(r) => [r] case None => [])
  }

  /** Number of cycles whose SCD41 read succeeded. */
  function Co2Successes(cycles: seq<CycleInput>): nat {
    if cycles == [] then 0
    else Co2Successes(cycles[..|cycles| - 1]) + (if Co2(cycles[|cycles| - 1].scd41).Some? then 1 else 0)
  }

  /** The collector loop over a finite run of cycles. */
  method Collect(buf: PmsBuffer, cycles: seq<CycleInput>) returns (rows: seq<Row>)
    requires buf.Valid()
    modifies buf
    ensures buf.Valid()
    ensures buf.Snapshot() == Replay(old(buf.Snapshot()), AllFrames(cycles))
    ensures rows == Rows(old(buf.Snapshot()), cycles)
  {
    ghost var start := buf.Snapshot();
    rows := [];
    var i := 0;
    while i < |cycles|
      invariant 0 <= i <= |cycles|
      invariant buf.Valid()
      invariant buf.Snapshot() == Replay(start, AllFrames(cycles[..i]))
      invariant rows == Rows(start, cycles[..i])
    {
      var c := cycles[i];
      assert cycles[..i + 1][..i] == cycles[..i];
      ReplayAppend(start, AllFrames(cycles[..i]), c.frames);
      var _ := buf.Work(c.frames);
      var pm := buf.Read();
      var co2 := Co2(c.scd41);
      if co2.Some? {
        var sht := ReadSht40(c.sht40);
        rows := rows + [AssembleRow(pm, co2.value, sht)];
      }
      i := i + 1;
    }
    assert cycles[..i] == cycles;
  }

  /** A failed cycle costs exactly its own row: one row per cycle whose
      SCD41 read succeeded. */
  lemma {:induction false} RowsPerSuccessfulCycle(start: PmSnapshot, cycles: seq<CycleInput>)
    ensures |Rows(start, cycles)| == Co2Successes(cycles)
  {
    if cycles != [] {
      RowsPerSuccessfulCycle(start, cycles[..|cycles| - 1]);
    }
  }
}

=== FILE: monitor_app.dfy ===
/** The tile logic of the Tk monitor: seven tiles, each showing "--" or a
    number, refreshed by update_readings on every tick. Widgets, fonts and
    the 1.5 s rescheduling are left to Tk; one call of UpdateReadings is one
    tick. The number a tile shows is kept as an exact real (its one-decimal
    formatting is not modelled). */
module MonitorApp {
  import opened Optional
  import opened Pms5003
  import opened BmeSensor

  /** A tile's text: the "--" marker, or a formatted value. */
  datatype Tile = NoData | Shown(value: real)

  const PmTileKeys: set<string> := {"pm1", "pm25", "pm10"}
  const BmeTileKeys: set<string> := {"temp", "hum", "press", "aq"}
  const TileKeys: set<string> := {"pm1", "pm25", "pm10", "temp", "hum", "press", "aq"}

  /** The quick air-quality figure: min(100, max(0, gas / 50000 * 100)). */
  function QuickAq(gas: real): (aq: real)
    ensures 0.0 <= aq <= 100.0
    ensures gas >= 50000.0 ==> aq == 100.0
    ensures gas <= 0.0 ==> aq == 0.0
    ensures 0.0 < gas < 50000.0 ==> aq * 500.0 == gas
  {
    var raw := (gas / 50000.0) * 100.0;
    var lower := if 0.0 >= raw then 0.0 else raw;
    if 100.0 <= lower then 100.0 else lower
  }

  /** The quick figure never decreases as gas resistance grows. */
  lemma QuickAqMonotone(g1: real, g2: real)
    requires g1 <= g2
    ensures QuickAq(g1) <= QuickAq(g2)
  {
  }

  /** The PM tile group and the BME tile group split the tile set. */
  lemma TileGroups()
    ensures PmTileKeys !! BmeTileKeys
    ensures PmTileKeys + BmeTileKeys == TileKeys
  {
  }

  class Monitor {
    /** Whether initialize_pms / initialize_bme returned a sensor. */
    const hasPms: bool
    const hasBme: bool
    var tiles: map<string, Tile>

    ghost predicate Valid()
      reads this
    {
      tiles.Keys == TileKeys
    }

    /** Every tile is created showing "--", as create_widgets leaves them.
        The application's __init__ is this constructor followed by one
        UpdateReadings tick. */
    constructor (hasPms: bool, hasBme: bool)
      ensures Valid()
      ensures this.hasPms == hasPms && this.hasBme == hasBme
      ensures forall k :: k in tiles ==> tiles[k] == NoData
    {
      this.hasPms := hasPms;
      this.hasBme := hasBme;
      tiles := map k | k in TileKeys :: NoData;
    }

    /** One tick. pms is the outcome of pms5003.read() (None: it raised);
        bme is the outcome of get_sensor_data() (None: falsy). The PM tiles
        all take the same frame's values, or all "--" on a failed read, and
        are untouched without a PMS sensor. The BME tiles change only when
        the sensor exists and has data, heat-stable or not; otherwise they
        keep their previous values. */
    method UpdateReadings(pms: Option<PmsFrame>, bme: Option<BmeData>)
      requires Valid()
      modifies this
      ensures Valid()
      ensures hasPms && pms.Some? ==>
                tiles["pm1"] == Shown(pms.value.pm1 as real)
                && tiles["pm25"] == Shown(pms.value.pm25 as real)
                && tiles["pm10"] == Shown(pms.value.pm10 as real)
      ensures hasPms && pms.None? ==>
                tiles["pm1"] == NoData && tiles["pm25"] == NoData && tiles["pm10"] == NoData
      ensures !hasPms ==> forall k :: k in PmTileKeys ==> tiles[k] == old(tiles)[k]
      ensures hasBme && bme.Some? ==>
                tiles["temp"] == Shown(bme.value.temperature)
                && tiles["hum"] == Shown(bme.value.humidity)
                && tiles["press"] == Shown(bme.value.pressure)
                && tiles["aq"] == Shown(QuickAq(bme.value.gasResistance))
      ensures !(hasBme && bme.Some?) ==> forall k :: k in BmeTileKeys ==> tiles[k] == old(tiles)[k]
    {
      if hasPms {
        match pms
        case Some(r) =>
          tiles := tiles["pm1" := Shown(r.pm1 as real)]["pm25" := Shown(r.pm25 as real)]["pm10" := Shown(r.pm10 as real)];
        case None =>
          tiles := tiles["pm1" := NoData]["pm25" := NoData]["pm10" := NoData];
      }
      if hasBme && bme.Some? {
        var d := bme.value;
        tiles := tiles["temp" := Shown(d.temperature)]["hum" := Shown(d.humidity)]["press" := Shown(d.pressure)];
        tiles := tiles["aq" := Shown(QuickAq(d.gasResistance))];
      }
    }
  }
}

=== FILE: optional.dfy ===
/** The Some/None datatype used for every "may be absent" value of the model:
    a sensor read that raised, a driver call that returned a falsy value,
    a database column written as NULL. */
module Optional {

  datatype Option<+T> = None | Some(value: T)
}

=== FILE: pms5003.dfy ===
/** One successfully decoded PMS5003 frame, as far as the core uses it: the
    three mass concentrations (ug/m3) returned by pm_ug_per_m3(1.0),
    pm_ug_per_m3(2.5) and pm_ug_per_m3(10). A read that raised (timeout,
    checksum mismatch) is modelled as the absence of a frame. */
module Pms5003 {

  datatype PmsFrame = PmsFrame(pm1: nat, pm25: nat, pm10: nat)
}

=== FILE: scoring_loop.dfy ===
/** The measuring loop that follows burn-in in both BME680 scripts: every
    heat-stable reading is scored against the fixed gas baseline and
    emitted (printed, and in one script appended to the CSV file); other
    reads emit nothing. The endless loop is abstracted to the finite
    sequence of read outcomes it consumes. */
module ScoringLoop {
  import opened Optional
  import opened BmeSensor
  import opened AirQuality

  /** What one emitted line carries: the reading and its score. */
  datatype LiveRow = LiveRow(reading: BmeData, airQuality: real)

  method MainLoop(outcomes: seq<ReadOutcome>, gasBaseline: real) returns (rows: seq<LiveRow>)
    requires forall k :: 0 <= k < |outcomes| && Stable(outcomes[k]) ==> Scorable(outcomes[k].value.gasResistance, gasBaseline)
    ensures |rows| == |StableReadings(outcomes)|
    ensures forall k :: 0 <= k < |rows| ==>
              && rows[k].reading == StableReadings(outcomes)[k]
              && Scorable(rows[k].reading.gasResistance, gasBaseline)
              && rows[k].airQuality == Score(rows[k].reading.gasResistance, rows[k].reading.humidity, gasBaseline)
  {
    rows := [];
    var i := 0;
    while i < |outcomes|
      invariant 0 <= i <= |outcomes|
      invariant |rows| == |StableReadings(outcomes[..i])|
      invariant forall k :: 0 <= k < |rows| ==>
                  && rows[k].reading == StableReadings(outcomes[..i])[k]
                  && Scorable(rows[k].reading.gasResistance, gasBaseline)
                  && rows[k].airQuality == Score(rows[k].reading.gasResistance, rows[k].reading.humidity, gasBaseline)
    {
      assert outcomes[..i + 1][..i] == outcomes[..i];
      var o := outcomes[i];
      if Stable(o) {
        var d := o.value;
        rows := rows + [LiveRow(d, Score(d.gasResistance, d.humidity, gasBaseline))];
      }
      i := i + 1;
    }
    assert outcomes[..i] == outcomes;
  }
}
